=== FILE: README.md ===
# JSON event validation: schema selection and error reporting

This project models the validation pipeline of `validation.py`. That script
checks a directory of health and fitness event records (sleep, workout,
"cmarker" and labels records) against JSON Schema documents. It does this in
five steps:

- It files each schema document under one of four categories, using the
  marker fields in the schema's `required` list.
- It picks a schema for each data record from the keys of the record's
  `data` mapping.
- It runs the JSON Schema engine on the record.
- It turns each engine error into a dotted field path and a readable message.
- It builds an ordered list of reports. A valid file gets one "OK" block. A
  file with engine errors gets one "ERROR" block per error. A file whose
  schema lookup raised `KeyError` or `AttributeError` gets one "NO DATA"
  block. When converting an error raises `TypeError`, the file keeps the
  "ERROR" blocks already appended and gets one "NO DATA" block after them.

Modules:

- `Outcomes`: the three exceptions, and `Result`, which stands for "returns
  a value or raises".
- `JsonValues`: loaded JSON values and Python truthiness.
- `Text`: the string operations the code uses: `in`, `join`, and `split` on
  one character.
- `Schemas`: the `Category` type, the classification of one schema, and
  `load_schemas_map`.
- `Selection`: `select_schema`.
- `Errors`: `build_error_path` and `convert_error`.
- `Reports`: `generate_report` and the per-file logic of `main`. The per-file
  logic is written twice: once as pure functions that state the reports, and
  once as loops that follow the code. The loops are proved equal to the
  functions.
- `Scenarios`: worked examples on concrete records.

The JSON Schema engine (`jsonschema.Draft3Validator`) is not modelled. It is
a parameter: a function from a record and a schema to the engine's errors, in
the engine's order. File discovery and file reading are also parameters: the
driver receives the loaded schema documents and data files in discovery
order.

In these places the model follows the code as written:

- A record with no `data` entry is not an error. `.get("data", {})` gives an
  empty key set, so the record is validated against the `sleep` schema.
- A missing category raises `KeyError` inside the driver's `try`. The file
  gets one "NO DATA"/"ALL_DATA" report and the run goes on; the run is not
  aborted. Without a `sleep` schema, every file gets that report, because
  `schemas["sleep"]` is read first.
- An error path that holds an array index is not rendered as
  `.data.cmarkers.0`. `".".join` raises `TypeError` on the integer, so the
  file gets a "NO DATA"/"ALL_DATA" report after any "ERROR" reports already
  appended for it. `convert_error` builds the path before it looks at the
  message, so this happens whatever the message says.
- The expected type in a type-mismatch message is the text after the last
  single space (`split(" ")`), not the last whitespace-separated word.
- Schema classification and record selection break ties in opposite orders.
  `SelectionMatchesClassification` proves they agree exactly when at most
  one marker field is involved.

## Model

| member | source | states |
|---|---|---|
| `Schemas.Classify` | validation.py:22-29 | A schema is filed under the marker it lists with the highest classification priority: activity_name first, then cmarkers, then labels. It is filed under `sleep` exactly when it lists none of the three. |
| `Schemas.LoadSchemas` | validation.py:16-31 | Loading the documents in order gives a registry with exactly the categories some document is filed under. Each category holds the LAST document filed under it. |
| `Schemas.LoadStepCovers` | validation.py:19-29 | Filing one more document keeps the present categories equal to those of the documents filed so far. |
| `Schemas.LoadStepLast` | validation.py:19-29 | Filing one more document keeps every category holding the last document filed under it. |
| `Schemas.LoadedFromUnique` | validation.py:16-31 | The description of the loaded registry fixes it completely. Two registries that both meet it are equal. |
| `Selection.SelectCategory` | validation.py:50-57 | A non-empty key set selects the marker with the LOWEST classification priority: labels over cmarkers over activity_name. It selects `sleep` exactly when no marker key is present. |
| `Selection.DataKeys` | validation.py:46 | `record.get("data", {}).keys()` succeeds exactly when the record is a mapping whose `data` entry is absent or a mapping. It gives no keys when the entry is absent, and raises `AttributeError` otherwise. |
| `Selection.SelectSchema` | validation.py:40-57 | A missing `sleep` schema raises `KeyError` for every record. A falsy record gets the `sleep` schema. `AttributeError` is raised exactly for a truthy record whose data cannot be key-inspected. Otherwise the selected category's schema is returned, or `KeyError` if that category is missing. `TypeError` is never raised. |
| `Selection.MissingSleepFailsEveryRecord` | validation.py:41 | Without a `sleep` schema, selection fails with `KeyError` for every record, including records whose data holds `labels`. |
| `Selection.NoDataGoesToSleep` | validation.py:43-48 | A mapping record without a `data` entry, or with an empty one, gets the `sleep` schema. |
| `Selection.SelectionMatchesClassification` | validation.py:22-55 | When a schema's `required` list and a record's keys hold the same marker fields, classification and selection pick the same category exactly when there is at most one marker. |
| `JsonValues.Truthy` | validation.py:43 | `not data`: a value is falsy exactly when it is null, false, zero, the empty string, the empty list or the empty object. |
| `Text.Join` | validation.py:61 | `sep.join(parts)`: "" for no pieces, the piece itself for one, and for two or more it starts with the first piece followed by the separator. |
| `Text.JoinEndsWithLast` | validation.py:61 | A join ends with its last piece, and with two or more pieces the separator comes right before it. |
| `Text.Contains` | validation.py:67-69 | Python's `sub in s`: true exactly when `sub` occurs at some position of `s`. |
| `Text.Split` | validation.py:70 | `s.split(sep)` gives at least one piece. No piece holds the separator. Joining the pieces with the separator gives `s` back. |
| `Text.LastWord` | validation.py:70 | `split(" ")[-1]` is the space-free suffix of the message that is preceded by a space, or is the whole message. |
| `Text.LastWordOfSuffix` | validation.py:70 | A message ending in a space and a space-free word has that word as its last word. |
| `Text.SplitJoin` | validation.py:61 | Splitting a joined list of separator-free pieces gives the pieces back. |
| `Errors.JoinPath` | validation.py:61 | `".".join(path)` succeeds exactly when every path token is a property name, and then joins the names with dots. Otherwise it raises `TypeError`. |
| `Errors.BuildErrorPath` | validation.py:60-62 | The field path is "." followed by the property names joined with "." (so "." for the root). It raises `TypeError` exactly when the path holds an array index. |
| `Errors.BuildErrorPathRoundTrip` | validation.py:60-62 | For names without dots, splitting the field path after its leading dot gives the property names back. |
| `Errors.ConvertError` | validation.py:65-73 | It raises `TypeError` exactly when the path holds an array index, whatever the message. A message containing "is a required property" becomes "Missed required field <path>"; this is checked first. Otherwise, a message containing "is not of type" becomes a text that starts with "Field value in <path>", continues right there with " does not match <last word of the message> (", and ends with "(<message>)", with nothing else in between: its length is that of the three parts. Any other message is returned unchanged. |
| `Errors.MismatchText` | validation.py:71 | The type-mismatch text starts with "Field value in <path>", followed at once by " does not match <expected> (", and ends with the original message in parentheses. Its length leaves no room for anything else, so it is exactly "Field value in <path> does not match <expected> (<message>)". |
| `Errors.TypeMismatchNamesExpectedType` | validation.py:69-71 | A message "<value> is not of type <type>" is reported as a mismatch against exactly <type>. |
| `Reports.GenerateReportDefaults` | validation.py:86-94 | A report keeps the file and every part given to it. Each part not given is "OK". The two "NO DATA" reports carry "ALL_DATA"/"NO DATA AVAILABLE" and "DATA"/"NOT ENOUGH DATA". |
| `Reports.ErrorReport` | validation.py:113-116 | An error gives an "ERROR" report for the file, with the built path as field and the converted message, exactly when its path holds no array index. Otherwise it raises `TypeError`. |
| `Reports.NamedPrefix` | validation.py:111-116 | The position of the first error whose path holds an array index, which is where the error loop raises `TypeError`; the number of errors when every path is name-only. |
| `Reports.ErrorReports` | validation.py:111-123 | A non-empty error list gives at least one report, and every report names the file. |
| `Reports.ErrorReportsShape` | validation.py:111-123 | When every path is name-only, there is one "ERROR" report per error, in engine order. Otherwise the reports stop at the first error with an array index: the errors before it are reported, then one "NO DATA"/"ALL_DATA" report. |
| `Reports.FileReports` | validation.py:105-126 | Every file gets at least one report, and all its reports name it. A missing `sleep` schema or a `KeyError` gives one "NO DATA"/"ALL_DATA" report. `AttributeError` gives one "NO DATA"/"DATA"/"NOT ENOUGH DATA" report. A valid record gives exactly one "OK"/"OK"/"OK" report. Engine errors give the error-loop reports. |
| `Reports.AllReportsCount` | validation.py:100-126 | A run gives at least as many reports as there are files, because each file gets at least one. |
| `Reports.AllReportsBlock` | validation.py:102-126 | Each file contributes its own non-empty block of reports, all naming that file, placed between the reports of the files before it and those of the files after it. |
| `Reports.AllReportsAppend` | validation.py:102-126 | The reports for files `a + b` are the reports for `a` followed by the reports for `b`: file order is kept. |
| `Reports.AllReportsPrefix` | validation.py:102-126 | The reports for the first n files are a prefix of the run's reports. Nothing appended is removed or changed later. |
| `Reports.MissingSleepReportsNoData` | validation.py:41-123 | Without a `sleep` schema, each file gets exactly one "NO DATA"/"ALL_DATA" report, in file order. |
| `Reports.ReportError` | validation.py:113-116 | The loop body as written, which converts the message and then builds the path, gives exactly the error's report, or `TypeError`. |
| `Reports.ReportErrors` | validation.py:111-123 | The error loop as written, which appends and breaks out on `TypeError`, gives exactly the error-loop reports. |
| `Reports.ReportFile` | validation.py:105-126 | The per-file `try` block as written gives exactly the file's reports. |
| `Reports.Run` | validation.py:97-126 | The run loads the schemas as `LoadSchemas` describes. It returns the concatenated per-file reports, with at least one report per file. |
| `Scenarios.OppositeTieBreaks` | validation.py:22-55 | required [labels, activity_name] is filed as workout. Record keys {labels, activity_name} select labels. |
| `Scenarios.DottedNamesCollide` | validation.py:60-62 | The paths `a.b`/`c` and `a`/`b.c` both render as ".a.b.c": names that hold a dot make field paths ambiguous. |
| `Scenarios.ValidWorkoutIsOk` | validation.py:117-119 | A valid `{"data": {"activity_name": "run"}}` record gets exactly one "OK"/"OK"/"OK" report. |
| `Scenarios.EmptyRecordMissingField` | validation.py:43-44 | The empty record `{}` is validated against the `sleep` schema. A missing root property is reported with field "." and message "Missed required field .". |
| `Scenarios.RequiredMessage` | validation.py:65-68 | A root-level missing-property message converts to "Missed required field .". |
| `Scenarios.ArrayElementErrorBecomesNoData` | validation.py:61-122 | An error at `data.cmarkers[0]` gives one "NO DATA"/"ALL_DATA" report, not a dotted path. |
| `Scenarios.NullDataIsNotEnoughData` | validation.py:46-126 | A record whose `data` is `null` gets one "NO DATA"/"DATA"/"NOT ENOUGH DATA" report. |

## Left out

- dirs.py holds only path configuration. It is not part of this model.
- File discovery (`glob`, validation.py:12-13) and file reading (`open`,
  `json.load`) are not modelled. The driver receives the loaded documents in
  discovery order. A file that is not valid JSON aborts the run uncaught.
  The model assumes every file parses.
- `Schema.required` is a list of strings. The code accepts more: a string
  `required` value is tested by substring (`"mylabels"` is filed as labels),
  an object value is tested by key, and a list may hold non-strings. None of
  these raise, and the model does not cover them. A schema whose `required`
  is missing, a boolean, a number or null raises at validation.py:22-26,
  outside any `try`, and aborts the run. So does a schema document that is
  not an object (a list, string, number or null): `schema["required"]` raises
  `TypeError` at validation.py:22. The model does not cover these either.
- The `jsonschema.Draft3Validator` engine is a function parameter. The model
  assumes it returns a finite list and never raises.
- `display_reports` (validation.py:76-83) only formats log output through
  loguru. It is not modelled.
- JSON numbers are reals. Non-finite values (`NaN`, `Infinity`) are left out.
  Only truthiness depends on numbers, and zero is the only falsy number.
- Object key order and duplicate keys are not modelled. An object is a map,
  and only key membership matters to the code.
- Running the pipeline twice on the same input gives the same reports,
  because every member is a pure function of its inputs. No separate lemma
  states this.

=== FILE: errors.dfy ===
/** Translation of one validation-engine error into a dotted field path and
    a human-readable message. */
module Errors {
  import opened Outcomes
  import opened Text

  /** One step of an error's location: a property name, or an array index. */
  datatype PathToken = Key(name: string) | Index(index: int)

  /** An error reported by the validation engine. */
  datatype ValidationError = ValidationError(path: seq<PathToken>, message: string)

  const RequiredPhrase := "is a required property"
  const TypePhrase := "is not of type"

  /** Every step of the path is a property name. */
  predicate AllKeys(path: seq<PathToken>) {
    forall k :: 0 <= k < |path| ==> path[k].Key?
  }

  /** The property names along an all-name path. */
  function Names(path: seq<PathToken>): (names: seq<string>)
    requires AllKeys(path)
    ensures |names| == |path|
    ensures forall k :: 0 <= k < |path| ==> names[k] == path[k].name
  {
    seq(|path|, k requires 0 <= k < |path| => path[k].name)
  }

  /** `".".join(path)`: Python's join raises `TypeError` on the first item
      that is not a string, here an array index. */
  function JoinPath(path: seq<PathToken>): (r: Result<string>)
    ensures r.Ok? <==> AllKeys(path)
    ensures r.Fail? ==> r.exc == TypeError
    ensures r.Ok? ==> r.value == Join(Names(path), ".")
  {
    if |path| == 0 then Ok("")
    else
      match path[0]
      case Index(_) => Fail(TypeError)
      case Key(name) =>
        if |path| == 1 then Ok(name)
        else
          match JoinPath(path[1..])
          case Fail(e) => Fail(e)
          case Ok(tail) =>
            assert Names(path)[1..] == Names(path[1..]);
            Ok(name + "." + tail)
  }

  /** `build_error_path`: a dot followed by the path's property names
      joined with dots; `TypeError` when the path holds an array index. */
  function BuildErrorPath(path: seq<PathToken>): (r: Result<string>)
    ensures r.Ok? <==> AllKeys(path)
    ensures r.Fail? ==> r.exc == TypeError
    ensures r.Ok? ==> r.value == "." + Join(Names(path), ".")
    ensures r.Ok? ==> |r.value| >= 1 && r.value[0] == '.'
    ensures |path| == 0 ==> r == Ok(".")
  {
    match JoinPath(path)
    case Fail(e) => Fail(e)
    case Ok(joined) =>
      assert |path| == 0 ==> joined == "" && "." + joined == ".";
      Ok("." + joined)
  }

  /** The dotted path gives the property names back when none of them holds
      a dot. */
  lemma BuildErrorPathRoundTrip(path: seq<PathToken>)
    requires |path| >= 1 && AllKeys(path)
    requires forall k :: 0 <= k < |path| ==> '.' !in path[k].name
    ensures BuildErrorPath(path).Ok?
    ensures Split(BuildErrorPath(path).value[1..], '.') == Names(path)
  {
    var text := BuildErrorPath(path).value;
    assert text[1..] == Join(Names(path), ".");
    SplitJoin(Names(path), '.');
  }

  /** `convert_error`: the path is built first (so an array index raises
      `TypeError` whatever the message says); a missing-property message
      becomes "Missed required field <path>", a type-mismatch message names
      the expected type (the message's last word) and quotes the original,
      and any other message is kept as it is. */
  function ConvertError(e: ValidationError): (r: Result<string>)
    ensures r.Ok? <==> AllKeys(e.path)
    ensures r.Fail? ==> r.exc == TypeError
    ensures r.Ok? && Contains(e.message, RequiredPhrase) ==>
      r.value == "Missed required field " + BuildErrorPath(e.path).value
    ensures r.Ok? && !Contains(e.message, RequiredPhrase) && Contains(e.message, TypePhrase) ==>
      && "Field value in " + BuildErrorPath(e.path).value <= r.value
      && OccursAt(r.value, " does not match " + LastWord(e.message) + " (",
                  |"Field value in " + BuildErrorPath(e.path).value|)
      && EndsWith(r.value, "(" + e.message + ")")
      && |r.value| == |"Field value in " + BuildErrorPath(e.path).value + " does not match "
                       + LastWord(e.message) + " ("| + |e.message| + 1
    ensures r.Ok? && !Contains(e.message, RequiredPhrase) && !Contains(e.message, TypePhrase) ==>
      r.value == e.message
  {
    match BuildErrorPath(e.path)
    case Fail(x) => Fail(x)
    case Ok(path) =>
      if Contains(e.message, RequiredPhrase) then
        Ok("Missed required field " + path)
      else if Contains(e.message, TypePhrase) then
        var value := LastWord(e.message);
        var text := MismatchText(path, value, e.message);
        Ok(text)
      else
        Ok(e.message)
  }

  /** The type-mismatch report: "Field value in <path>", then " does not
      match <expected> (", and last the original message in parentheses. */
  function MismatchText(path: string, expected: string, message: string): (text: string)
    ensures "Field value in " + path <= text
    ensures OccursAt(text, " does not match " + expected + " (", |"Field value in " + path|)
    ensures EndsWith(text, "(" + message + ")")
    ensures |text| == |"Field value in " + path + " does not match " + expected + " ("| + |message| + 1
  {
    var head := "Field value in " + path + " does not match ";
    var text := head + expected + " (" + message + ")";
    assert OccursAt(text, " does not match " + expected + " (", |"Field value in " + path|) by {
      assert text == ("Field value in " + path) + (" does not match " + expected + " (") + (message + ")");
      OccursAfter("Field value in " + path, " does not match " + expected + " (", message + ")");
    }
    assert "Field value in " + path <= text by {
      assert text == ("Field value in " + path) + (" does not match " + expected + " (" + message + ")");
    }
    assert EndsWith(text, "(" + message + ")") by {
      assert text == (head + expected + " ") + ("(" + message + ")");
    }
    text
  }

  /** A type-mismatch message of the engine's shape "<value> is not of type
      <type>" is reported as a mismatch against exactly that type. */
  lemma TypeMismatchNamesExpectedType(path: seq<PathToken>, instance: string, expected: string)
    requires AllKeys(path)
    requires ' ' !in expected
    requires !Contains(instance + " " + TypePhrase + " " + expected, RequiredPhrase)
    ensures
      var message := instance + " " + TypePhrase + " " + expected;
      ConvertError(ValidationError(path, message))
        == Ok(MismatchText(BuildErrorPath(path).value, expected, message))
  {
    var message := instance + " " + TypePhrase + " " + expected;
    assert OccursAt(message, TypePhrase, |instance| + 1);
    LastWordOfSuffix(instance + " " + TypePhrase, expected);
  }
}

=== FILE: json.dfy ===
/** JSON values as `json.load` produces them, and Python's truth test on them. */
module JsonValues {

  /** A loaded JSON document. Numbers are kept as reals (Python's `int` and
      `float` both fit); an object is a mapping from keys to values, as in a
      Python `dict` (the last of duplicate keys wins when loading). */
  datatype Json =
    | JNull
    | JBool(b: bool)
    | JNum(n: real)
    | JStr(s: string)
    | JArr(items: seq<Json>)
    | JObj(fields: map<string, Json>)

  /** Python's `bool(v)`: `None`, `False`, zero, and the empty string, list
      and dict are falsy; every other value is truthy. */
  predicate Truthy(v: Json)
    ensures !Truthy(v) <==>
      v == JNull || v == JBool(false) || v == JNum(0.0)
      || v == JStr("") || v == JArr([]) || v == JObj(map[])
  {
    match v
    case JNull => false
    case JBool(b) => b
    case JNum(n) => n != 0.0
    case JStr(s) => |s| > 0
    case JArr(items) => |items| > 0
    case JObj(fields) => |fields| > 0
  }
}

=== FILE: outcomes.dfy ===
/** The Python exceptions that the validation pipeline raises or catches, and
    a result type that stands for "returns a value or raises". */
module Outcomes {

  /** The three exception classes the per-file driver distinguishes. */
  datatype Exception = KeyError | TypeError | AttributeError

  /** The value an operation returns, or the exception it raises. */
  datatype Result<+T> = Ok(value: T) | Fail(exc: Exception)
}

=== FILE: reports.dfy ===
/** Report records and the per-file driver: each data file's outcome
    (valid, N validation errors, or a caught exception) becomes one or more
    reports, appended in file order. */
module Reports {
  import opened Outcomes
  import opened JsonValues
  import opened Schemas
  import opened Selection
  import opened Errors

  /** One report block: the file, its verdict ("OK", "ERROR" or "NO DATA"),
      the field concerned and a message. */
  datatype Report = Report(file: string, result: string, field: string, message: string)

  /** A data file: its path and its loaded content. */
  datatype DataFile = DataFile(path: string, content: Json)

  /** The validation engine, as a function of the record and the schema
      returning the errors in the engine's order. */
  type Validator = (Json, Schema) -> seq<ValidationError>

  /** `generate_report`: every part not given is "OK". */
  function GenerateReport(file: string, result: string := "OK", field: string := "OK",
                          message: string := "OK"): Report
  {
    Report(file, result, field, message)
  }

  /** The parts of a report not given are "OK"; the given ones are kept. */
  lemma GenerateReportDefaults(file: string, result: string, field: string, message: string)
    ensures GenerateReport(file) == Report(file, "OK", "OK", "OK")
    ensures GenerateReport(file, result := result) == Report(file, result, "OK", "OK")
    ensures GenerateReport(file, result, field, message) == Report(file, result, field, message)
    ensures NoDataAvailable(file) == Report(file, "NO DATA", "ALL_DATA", "NO DATA AVAILABLE")
    ensures NotEnoughData(file) == Report(file, "NO DATA", "DATA", "NOT ENOUGH DATA")
  {
  }

  /** The report for a file caught with `KeyError` or `TypeError`. */
  function NoDataAvailable(file: string): Report {
    GenerateReport(file, result := "NO DATA", field := "ALL_DATA", message := "NO DATA AVAILABLE")
  }

  /** The report for a file caught with `AttributeError`. */
  function NotEnoughData(file: string): Report {
    GenerateReport(file, result := "NO DATA", field := "DATA", message := "NOT ENOUGH DATA")
  }

  /** The report for one validation error: the message is converted, then
      the path is built; either step raises `TypeError` on an array index. */
  function ErrorReport(file: string, e: ValidationError): (r: Result<Report>)
    ensures r.Ok? <==> AllKeys(e.path)
    ensures r.Fail? ==> r.exc == TypeError
    ensures r.Ok? ==>
      && r.value.file == file
      && r.value.result == "ERROR"
      && r.value.field == BuildErrorPath(e.path).value
      && r.value.message == ConvertError(e).value
  {
    match ConvertError(e)
    case Fail(x) => Fail(x)
    case Ok(message) =>
      match BuildErrorPath(e.path)
      case Fail(x) => Fail(x)
      case Ok(path) => Ok(GenerateReport(file, result := "ERROR", field := path, message := message))
  }

  /** The number of leading errors whose paths are name-only: the position
      of the first error whose path holds an array index, or the number of
      errors when there is none. */
  function NamedPrefix(errors: seq<ValidationError>): (n: nat)
    ensures n <= |errors|
    ensures forall i :: 0 <= i < n ==> AllKeys(errors[i].path)
    ensures n < |errors| ==> !AllKeys(errors[n].path)
  {
    if |errors| == 0 || !AllKeys(errors[0].path) then 0
    else 1 + NamedPrefix(errors[1..])
  }

  /** The reports of the error loop: one "ERROR" report per error, in the
      engine's order, until the first error whose path holds an array index;
      there the `TypeError` ends the loop with one "NO DATA" report after
      the ones already appended. */
  function ErrorReports(file: string, errors: seq<ValidationError>): (rs: seq<Report>)
    ensures |errors| > 0 ==> |rs| >= 1
    ensures forall i :: 0 <= i < |rs| ==> rs[i].file == file
  {
    if |errors| == 0 then []
    else
      match ErrorReport(file, errors[0])
      case Fail(_) => [NoDataAvailable(file)]
      case Ok(report) => [report] + ErrorReports(file, errors[1..])
  }

  /** The error loop reports every error before the first one whose path
      holds an array index, in order, and then ends with one "NO DATA"
      report; when there is no such error, every error is reported. */
  lemma {:induction false} ErrorReportsShape(file: string, errors: seq<ValidationError>)
    ensures |ErrorReports(file, errors)|
      == if NamedPrefix(errors) == |errors| then |errors| else NamedPrefix(errors) + 1
    ensures forall i :: 0 <= i < NamedPrefix(errors) ==>
      ErrorReport(file, errors[i]) == Ok(ErrorReports(file, errors)[i])
    ensures NamedPrefix(errors) < |errors| ==>
      ErrorReports(file, errors)[NamedPrefix(errors)] == NoDataAvailable(file)
    decreases |errors|
  {
    if |errors| > 0 && AllKeys(errors[0].path) {
      var rest := ErrorReports(file, errors[1..]);
      ErrorReportsShape(file, errors[1..]);
      assert ErrorReports(file, errors) == [ErrorReport(file, errors[0]).value] + rest;
      assert NamedPrefix(errors) == 1 + NamedPrefix(errors[1..]);
      forall i | 0 < i < NamedPrefix(errors)
        ensures ErrorReport(file, errors[i]) == Ok(ErrorReports(file, errors)[i])
      {
        assert errors[1..][i - 1] == errors[i];
      }
    }
  }

  /** All reports for one data file. */
  function FileReports(file: string, record: Json, reg: Registry, validate: Validator): (rs: seq<Report>)
    ensures |rs| >= 1
    ensures forall i :: 0 <= i < |rs| ==> rs[i].file == file
    ensures Sleep !in reg ==> rs == [NoDataAvailable(file)]
    ensures SelectSchema(record, reg) == Fail(AttributeError) ==> rs == [NotEnoughData(file)]
    ensures SelectSchema(record, reg) == Fail(KeyError) ==> rs == [NoDataAvailable(file)]
    ensures SelectSchema(record, reg).Ok? && validate(record, SelectSchema(record, reg).value) == [] ==>
      rs == [Report(file, "OK", "OK", "OK")]
    ensures SelectSchema(record, reg).Ok? && validate(record, SelectSchema(record, reg).value) != [] ==>
      rs == ErrorReports(file, validate(record, SelectSchema(record, reg).value))
  {
    match SelectSchema(record, reg)
    case Fail(AttributeError) => [NotEnoughData(file)]
    case Fail(_) => [NoDataAvailable(file)]
    case Ok(schema) =>
      var errors := validate(record, schema);
      if |errors| == 0 then [GenerateReport(file)]
      else
        ErrorReports(file, errors)
  }

  /** The reports of a whole run: each file's reports, in file order. */
  function AllReports(files: seq<DataFile>, reg: Registry, validate: Validator): seq<Report>
  {
    if |files| == 0 then []
    else
      var last := files[|files| - 1];
      AllReports(files[..|files| - 1], reg, validate) + FileReports(last.path, last.content, reg, validate)
  }

  /** Every file gets at least one report, so a run has at least as many
      reports as there are files. */
  lemma {:induction false} AllReportsCount(files: seq<DataFile>, reg: Registry, validate: Validator)
    ensures |AllReports(files, reg, validate)| >= |files|
    decreases |files|
  {
    if |files| > 0 {
      AllReportsCount(files[..|files| - 1], reg, validate);
    }
  }

  /** Reports are only ever appended: the reports of a run over `a + b` are
      those of `a` followed by those of `b`. */
  lemma {:induction false} AllReportsAppend(a: seq<DataFile>, b: seq<DataFile>, reg: Registry, validate: Validator)
    ensures AllReports(a + b, reg, validate) == AllReports(a, reg, validate) + AllReports(b, reg, validate)
    decreases |b|
  {
    if |b| == 0 {
      assert a + b == a;
    } else {
      var last := b[|b| - 1];
      var front := b[..|b| - 1];
      var tail := FileReports(last.path, last.content, reg, validate);
      assert AllReports(a + b, reg, validate) == AllReports(a + front, reg, validate) + tail by {
        assert (a + b)[..|a + b| - 1] == a + front;
        assert (a + b)[|a + b| - 1] == last;
      }
      AllReportsAppend(a, front, reg, validate);
    }
  }

  /** Every file contributes its own non-empty block of reports, between the
      blocks of the files before it and those after it: no file is skipped
      and no report is attributed to another file. */
  lemma AllReportsBlock(files: seq<DataFile>, i: nat, reg: Registry, validate: Validator)
    requires i < |files|
    ensures
      var block := FileReports(files[i].path, files[i].content, reg, validate);
      && AllReports(files, reg, validate)
         == AllReports(files[..i], reg, validate) + block + AllReports(files[i + 1..], reg, validate)
      && |block| >= 1
      && forall k :: 0 <= k < |block| ==> block[k].file == files[i].path
  {
    assert files == files[..i] + [files[i]] + files[i + 1..];
    AllReportsAppend(files[..i] + [files[i]], files[i + 1..], reg, validate);
    AllReportsAppend(files[..i], [files[i]], reg, validate);
    assert [files[i]][..0] == [];
  }

  /** The reports of the first files of a run are a prefix of the run's
      reports: nothing appended for a file is later removed or changed. */
  lemma AllReportsPrefix(files: seq<DataFile>, n: nat, reg: Registry, validate: Validator)
    requires n <= |files|
    ensures AllReports(files[..n], reg, validate) <= AllReports(files, reg, validate)
  {
    assert files == files[..n] + files[n..];
    AllReportsAppend(files[..n], files[n..], reg, validate);
  }

  /** Without a `sleep` schema every file, whatever it holds, gets exactly
      one "NO DATA"/"ALL_DATA" report. */
  lemma {:induction false} MissingSleepReportsNoData(files: seq<DataFile>, reg: Registry, validate: Validator)
    requires Sleep !in reg
    ensures AllReports(files, reg, validate) == seq(|files|, i requires 0 <= i < |files| => NoDataAvailable(files[i].path))
    decreases |files|
  {
    if |files| > 0 {
      MissingSleepReportsNoData(files[..|files| - 1], reg, validate);
    }
  }

  /** The per-file driver as written: select the schema, run the engine,
      and append one report per error until an exception is raised. */
  method ReportFile(file: string, record: Json, reg: Registry, validate: Validator)
    returns (out: seq<Report>)
    ensures out == FileReports(file, record, reg, validate)
  {
    var selected := SelectSchema(record, reg);
    if selected.Fail? {
      if selected.exc == AttributeError {
        return [NotEnoughData(file)];
      }
      return [NoDataAvailable(file)];
    }
    var errors := validate(record, selected.value);
    if |errors| == 0 {
      return [GenerateReport(file)];
    }
    out := ReportErrors(file, errors);
  }

  /** The body of the error loop as written: convert the message, then build
      the path, and make an "ERROR" report of the two. Once the message is
      converted the path is name-only, so building it again cannot raise. */
  method ReportError(file: string, e: ValidationError) returns (r: Result<Report>)
    ensures r == ErrorReport(file, e)
  {
    var message := ConvertError(e);
    if message.Fail? {
      return Fail(message.exc);
    }
    var path := BuildErrorPath(e.path);
    r := Ok(GenerateReport(file, result := "ERROR", field := path.value, message := message.value));
  }

  /** The error loop of the driver: one report per error, in order, until
      converting an error raises `TypeError`. */
  method ReportErrors(file: string, errors: seq<ValidationError>) returns (out: seq<Report>)
    ensures out == ErrorReports(file, errors)
  {
    out := [];
    var i := 0;
    while i < |errors|
      invariant 0 <= i <= |errors|
      invariant out + ErrorReports(file, errors[i..]) == ErrorReports(file, errors)
    {
      assert errors[i..][0] == errors[i] && errors[i..][1..] == errors[i + 1..];
      var report := ReportError(file, errors[i]);
      if report.Fail? {
        out := out + [NoDataAvailable(file)];
        return;
      }
      out := out + [report.value];
      i := i + 1;
    }
  }

  /** The whole run: load the schemas, then report every data file in
      order. */
  method Run(schemaDocs: seq<Schema>, files: seq<DataFile>, validate: Validator)
    returns (reg: Registry, reports: seq<Report>)
    ensures LoadedFrom(reg, schemaDocs, |schemaDocs|)
    ensures reports == AllReports(files, reg, validate)
    ensures |reports| >= |files|
  {
    reg := LoadSchemas(schemaDocs);
    reports := [];
    for n := 0 to |files|
      invariant reports == AllReports(files[..n], reg, validate)
    {
      var fileReports := ReportFile(files[n].path, files[n].content, reg, validate);
      assert files[..n + 1][..n] == files[..n];
      reports := reports + fileReports;
    }
    assert files[..|files|] == files;
    AllReportsCount(files, reg, validate);
  }
}

=== FILE: scenarios.dfy ===
/** Worked examples of the whole pipeline on concrete records. */
module Scenarios {
  import opened Outcomes
  import opened JsonValues
  import opened Schemas
  import opened Selection
  import opened Errors
  import opened Reports
  import Text

  /** A registry with one schema per category. */
  function FullRegistry(sleep: Schema, workout: Schema, cmarker: Schema, labels: Schema): Registry {
    map[Sleep := sleep, Workout := workout, CMarker := cmarker, Labels := labels]
  }

  /** A schema requiring `labels` and `activity_name` is filed as a workout
      schema, while a record carrying both keys selects the labels schema. */
  lemma OppositeTieBreaks()
    ensures Classify(["labels", "activity_name"]) == Workout
    ensures SelectCategory({"labels", "activity_name"}) == Labels
  {
  }

  /** Property names holding a dot make different paths render alike:
      `a.b` then `c`, and `a` then `b.c`, both give ".a.b.c". */
  lemma DottedNamesCollide()
    ensures BuildErrorPath([Key("a.b"), Key("c")]) == Ok(".a.b.c")
    ensures BuildErrorPath([Key("a"), Key("b.c")]) == Ok(".a.b.c")
  {
    assert Names([Key("a.b"), Key("c")]) == ["a.b", "c"];
    assert Names([Key("a"), Key("b.c")]) == ["a", "b.c"];
    assert ["a.b", "c"][1..] == ["c"];
    assert ["a", "b.c"][1..] == ["b.c"];
    assert Text.Join(["a.b", "c"], ".") == "a.b" + "." + "c";
    assert Text.Join(["a", "b.c"], ".") == "a" + "." + "b.c";
    assert "." + ("a.b" + "." + "c") == ".a.b.c";
    assert "." + ("a" + "." + "b.c") == ".a.b.c";
  }

  /** A valid workout record gets exactly one "OK" report. */
  lemma ValidWorkoutIsOk(sleep: Schema, workout: Schema, cmarker: Schema, labels: Schema,
                         validate: Validator)
    requires validate(JObj(map["data" := JObj(map["activity_name" := JStr("run")])]), workout) == []
    ensures
      var record := JObj(map["data" := JObj(map["activity_name" := JStr("run")])]);
      var files := [DataFile("run.json", record)];
      AllReports(files, FullRegistry(sleep, workout, cmarker, labels), validate)
        == [Report("run.json", "OK", "OK", "OK")]
  {
    var record := JObj(map["data" := JObj(map["activity_name" := JStr("run")])]);
    var reg := FullRegistry(sleep, workout, cmarker, labels);
    assert "data" in record.fields;
    assert DataKeys(record).value == {"activity_name"};
    assert SelectSchema(record, reg) == Ok(workout);
    assert FileReports("run.json", record, reg, validate) == [Report("run.json", "OK", "OK", "OK")];
  }

  /** An empty record is validated against the `sleep` schema; a missing
      top-level property is reported at the root path ".". */
  lemma EmptyRecordMissingField(sleep: Schema, reg: Registry, validate: Validator)
    requires Sleep in reg && reg[Sleep] == sleep
    requires validate(JObj(map[]), sleep) == [ValidationError([], "'duration' " + RequiredPhrase)]
    ensures AllReports([DataFile("empty.json", JObj(map[]))], reg, validate)
      == [Report("empty.json", "ERROR", ".", "Missed required field .")]
  {
    var e := ValidationError([], "'duration' " + RequiredPhrase);
    assert ConvertError(e) == Ok("Missed required field .") by {
      RequiredMessage("'duration' ");
    }
    assert ErrorReports("empty.json", [e]) == [Report("empty.json", "ERROR", ".", "Missed required field .")];
    assert FileReports("empty.json", JObj(map[]), reg, validate)
      == [Report("empty.json", "ERROR", ".", "Missed required field .")];
  }

  /** A root-level missing-property message converts to a report against
      the root path. */
  lemma RequiredMessage(head: string)
    ensures ConvertError(ValidationError([], head + RequiredPhrase)) == Ok("Missed required field .")
  {
    Text.OccursAfter(head, RequiredPhrase, "");
    assert head + RequiredPhrase + "" == head + RequiredPhrase;
    assert "Missed required field " + "." == "Missed required field .";
  }

  /** An error located at an array element is not reported with a dotted
      path: joining the integer index raises `TypeError`, and the file gets
      a single "NO DATA"/"ALL_DATA" report instead. */
  lemma ArrayElementErrorBecomesNoData(cmarker: Schema, reg: Registry, validate: Validator)
    requires Sleep in reg && CMarker in reg && reg[CMarker] == cmarker
    requires
      var record := JObj(map["data" := JObj(map["cmarkers" := JArr([JNum(1.0), JNum(2.0)])]), "extra" := JStr("x")]);
      validate(record, cmarker)
        == [ValidationError([Key("data"), Key("cmarkers"), Index(0)], "1 is not of type 'object'")]
    ensures
      var record := JObj(map["data" := JObj(map["cmarkers" := JArr([JNum(1.0), JNum(2.0)])]), "extra" := JStr("x")]);
      AllReports([DataFile("cm.json", record)], reg, validate) == [NoDataAvailable("cm.json")]
  {
    var record := JObj(map["data" := JObj(map["cmarkers" := JArr([JNum(1.0), JNum(2.0)])]), "extra" := JStr("x")]);
    assert "data" in record.fields;
    assert DataKeys(record).value == {"cmarkers"};
    assert SelectSchema(record, reg) == Ok(cmarker);
    var errors := validate(record, cmarker);
    assert !errors[0].path[2].Key?;
    assert NamedPrefix(errors) == 0;
    assert FileReports("cm.json", record, reg, validate) == [NoDataAvailable("cm.json")];
  }

  /** A record whose `data` entry is `null` cannot have its keys inspected:
      the file gets a single "NO DATA"/"DATA" report. */
  lemma NullDataIsNotEnoughData(reg: Registry, validate: Validator)
    requires Sleep in reg
    ensures AllReports([DataFile("null.json", JObj(map["data" := JNull]))], reg, validate)
      == [Report("null.json", "NO DATA", "DATA", "NOT ENOUGH DATA")]
  {
    var record := JObj(map["data" := JNull]);
    assert "data" in record.fields;
    assert SelectSchema(record, reg) == Fail(AttributeError);
  }
}

=== FILE: schemas.dfy ===
/** The schema registry: every schema document is filed into one of four
    categories by the marker fields in its `required` list. */
module Schemas {
  import opened JsonValues

  /** The four record kinds; `Sleep` is the fallback. */
  datatype Category = Sleep | Workout | CMarker | Labels

  /** The data fields whose presence marks a workout, a cmarker and a
      labels record. */
  const ActivityNameField := "activity_name"
  const CMarkersField := "cmarkers"
  const LabelsField := "labels"

  /** A schema document: its `required` field list, and the rest of the
      document, which only the validation engine looks at. */
  datatype Schema = Schema(required: seq<string>, rest: Json)

  /** The loaded schemas, keyed by category; a category may be missing. */
  type Registry = map<Category, Schema>

  /** Classification priority: when a schema lists several marker fields,
      the one of lowest rank decides its category. */
  function Rank(c: Category): nat {
    match c
    case Workout => 0
    case CMarker => 1
    case Labels => 2
    case Sleep => 3
  }

  /** The categories whose marker field is among `fields`. */
  function MarkersIn(fields: set<string>): set<Category> {
    (if ActivityNameField in fields then {Workout} else {})
    + (if CMarkersField in fields then {CMarker} else {})
    + (if LabelsField in fields then {Labels} else {})
  }

  /** The fields listed in a `required` list. */
  function Fields(required: seq<string>): set<string> {
    set f | f in required
  }

  /** The category a schema with this `required` list is filed under: the
      marker of highest classification priority it lists, and `Sleep` when
      it lists none. */
  function Classify(required: seq<string>): (c: Category)
    ensures c == Sleep <==> MarkersIn(Fields(required)) == {}
    ensures c != Sleep ==> c in MarkersIn(Fields(required))
    ensures forall m :: m in MarkersIn(Fields(required)) ==> Rank(c) <= Rank(m)
  {
    if ActivityNameField in required then Workout
    else if CMarkersField in required then CMarker
    else if LabelsField in required then Labels
    else Sleep
  }

  function CategoryOf(s: Schema): Category {
    Classify(s.required)
  }

  /** Among the first `n` documents, `i` is the last one filed under `c`. */
  ghost predicate LastOfCategory(docs: seq<Schema>, n: int, c: Category, i: int) {
    0 <= i < n <= |docs|
    && CategoryOf(docs[i]) == c
    && forall j :: i < j < n ==> CategoryOf(docs[j]) != c
  }

  /** `reg` is what loading the first `n` documents in order gives: a
      category is present exactly when some document is filed under it, and
      then it holds the last such document. */
  ghost predicate LoadedFrom(reg: Registry, docs: seq<Schema>, n: int)
    requires 0 <= n <= |docs|
  {
    CoversFiled(reg, docs, n) && HoldsLastFiled(reg, docs, n)
  }

  /** The categories present in `reg` are those of the first `n` documents. */
  ghost predicate CoversFiled(reg: Registry, docs: seq<Schema>, n: int)
    requires 0 <= n <= |docs|
  {
    forall c :: c in reg <==> exists i :: 0 <= i < n && CategoryOf(docs[i]) == c
  }

  /** Every category present in `reg` holds the last of the first `n`
      documents filed under it. */
  ghost predicate HoldsLastFiled(reg: Registry, docs: seq<Schema>, n: int)
    requires 0 <= n <= |docs|
  {
    forall c :: c in reg ==> exists i :: LastOfCategory(docs, n, c, i) && reg[c] == docs[i]
  }

  /** Files every schema document, in order, under its category; a later
      document of the same category replaces an earlier one. */
  method LoadSchemas(docs: seq<Schema>) returns (reg: Registry)
    ensures LoadedFrom(reg, docs, |docs|)
  {
    reg := map[];
    for n := 0 to |docs|
      invariant LoadedFrom(reg, docs, n)
    {
      LoadStepCovers(reg, docs, n);
      LoadStepLast(reg, docs, n);
      reg := reg[CategoryOf(docs[n]) := docs[n]];
    }
  }

  /** Filing document `n` keeps the present categories exactly those of
      the first `n + 1` documents. */
  lemma LoadStepCovers(reg: Registry, docs: seq<Schema>, n: nat)
    requires n < |docs| && LoadedFrom(reg, docs, n)
    ensures CoversFiled(reg[CategoryOf(docs[n]) := docs[n]], docs, n + 1)
  {
    var c := CategoryOf(docs[n]);
    var reg' := reg[c := docs[n]];
    forall d | d in reg'
      ensures exists i :: 0 <= i < n + 1 && CategoryOf(docs[i]) == d
    {
      if d != c {
        var i :| 0 <= i < n && CategoryOf(docs[i]) == d;
      }
    }
    forall i | 0 <= i < n + 1
      ensures CategoryOf(docs[i]) in reg'
    {
    }
  }

  /** Filing document `n` makes every present category hold the last of
      the first `n + 1` documents filed under it. */
  lemma LoadStepLast(reg: Registry, docs: seq<Schema>, n: nat)
    requires n < |docs| && LoadedFrom(reg, docs, n)
    ensures HoldsLastFiled(reg[CategoryOf(docs[n]) := docs[n]], docs, n + 1)
  {
    var c := CategoryOf(docs[n]);
    var reg' := reg[c := docs[n]];
    forall d | d in reg'
      ensures exists i :: LastOfCategory(docs, n + 1, d, i) && reg'[d] == docs[i]
    {
      if d == c {
        assert LastOfCategory(docs, n + 1, c, n);
      } else {
        var i :| LastOfCategory(docs, n, d, i) && reg[d] == docs[i];
        LastOfCategoryExtends(docs, n, d, i);
      }
    }
  }

  /** A document of another category does not change which one is last. */
  lemma LastOfCategoryExtends(docs: seq<Schema>, n: nat, d: Category, i: int)
    requires n < |docs| && CategoryOf(docs[n]) != d
    requires LastOfCategory(docs, n, d, i)
    ensures LastOfCategory(docs, n + 1, d, i)
  {
  }

  /** The registry loading produces is determined by the documents: the
      description `LoadedFrom` leaves no freedom. */
  lemma LoadedFromUnique(r1: Registry, r2: Registry, docs: seq<Schema>)
    requires LoadedFrom(r1, docs, |docs|) && LoadedFrom(r2, docs, |docs|)
    ensures r1 == r2
  {
  }
}

=== FILE: selection.dfy ===
/** Schema selection: which registered schema one data record is validated
    against, or the exception looking it up raises. */
module Selection {
  import opened Outcomes
  import opened JsonValues
  import opened Schemas

  /** The category chosen for a record whose `data` mapping has these keys:
      the marker of LOWEST classification priority present (labels, then
      cmarkers, then activity_name), and `Sleep` when none is present. */
  function SelectCategory(keys: set<string>): (c: Category)
    ensures c == Sleep <==> MarkersIn(keys) == {}
    ensures c != Sleep ==> c in MarkersIn(keys)
    ensures forall m :: m in MarkersIn(keys) ==> Rank(m) <= Rank(c)
  {
    if LabelsField in keys then Labels
    else if CMarkersField in keys then CMarker
    else if ActivityNameField in keys then Workout
    else Sleep
  }

  /** The record is a mapping, and its `data` entry, when present, is a
      mapping too. */
  predicate HasMappingData(record: Json) {
    record.JObj? && ("data" in record.fields ==> record.fields["data"].JObj?)
  }

  /** `record.get("data", {}).keys()`: the keys of the record's `data`
      mapping, none when the entry is absent, and `AttributeError` when the
      record or its `data` entry is not a mapping. */
  function DataKeys(record: Json): (r: Result<set<string>>)
    ensures r.Ok? <==> HasMappingData(record)
    ensures r.Fail? ==> r.exc == AttributeError
    ensures r.Ok? && "data" !in record.fields ==> r.value == {}
    ensures r.Ok? && "data" in record.fields ==> r.value == record.fields["data"].fields.Keys
  {
    match record
    case JObj(fields) =>
      var inner := if "data" in fields then fields["data"] else JObj(map[]);
      if inner.JObj? then Ok(inner.fields.Keys) else Fail(AttributeError)
    case _ => Fail(AttributeError)
  }

  /** `select_schema`: the `sleep` schema is looked up first, then used for
      a falsy record or an empty `data` mapping; otherwise the category
      `SelectCategory` picks is looked up. */
  function SelectSchema(record: Json, reg: Registry): (r: Result<Schema>)
    ensures Sleep !in reg ==> r == Fail(KeyError)
    ensures Sleep in reg && !Truthy(record) ==> r == Ok(reg[Sleep])
    ensures r == Fail(AttributeError) <==>
      Sleep in reg && Truthy(record) && !HasMappingData(record)
    ensures r != Fail(TypeError)
    ensures Sleep in reg && Truthy(record) && HasMappingData(record) ==>
      var c := SelectCategory(DataKeys(record).value);
      && (r.Ok? <==> c in reg)
      && (r.Ok? ==> r.value == reg[c])
  {
    if Sleep !in reg then Fail(KeyError)
    else
      var default := reg[Sleep];
      if !Truthy(record) then Ok(default)
      else
        match DataKeys(record)
        case Fail(e) => Fail(e)
        case Ok(keys) =>
          if |keys| == 0 then Ok(default)
          else
            var c := SelectCategory(keys);
            if c in reg then Ok(reg[c]) else Fail(KeyError)
  }

  /** A registry without a `sleep` schema fails every record with a key
      error, whatever its `data` holds. */
  lemma MissingSleepFailsEveryRecord(record: Json, reg: Registry)
    requires Sleep !in reg
    ensures SelectSchema(record, reg) == Fail(KeyError)
  {
  }

  /** A mapping record with no `data` entry, or an empty one, gets the
      `sleep` schema. */
  lemma NoDataGoesToSleep(record: Json, reg: Registry)
    requires Sleep in reg && record.JObj?
    requires "data" !in record.fields || record.fields["data"] == JObj(map[])
    ensures SelectSchema(record, reg) == Ok(reg[Sleep])
  {
  }

  /** Classification and selection agree when the schema's `required` list
      and the record's keys mention the same single marker field, and
      disagree whenever they mention the same two or more: the two stages
      break ties in opposite orders. */
  lemma SelectionMatchesClassification(required: seq<string>, keys: set<string>)
    requires MarkersIn(Fields(required)) == MarkersIn(keys)
    ensures Classify(required) == SelectCategory(keys) <==> |MarkersIn(keys)| <= 1
  {
  }
}

=== FILE: text.dfy ===
/** The Python `str` operations the validation code relies on: the substring
    test `sub in s`, `sep.join(parts)`, and `s.split(sep)` for a
    one-character separator. */
module Text {

  /** `sub` occurs in `s` starting at position `i`. */
  ghost predicate OccursAt(s: string, sub: string, i: int) {
    0 <= i && i + |sub| <= |s| && s[i..i + |sub|] == sub
  }

  /** `sub` occurs in `head + sub + tail` right after `head`. */
  lemma OccursAfter(head: string, sub: string, tail: string)
    ensures OccursAt(head + sub + tail, sub, |head|)
  {
  }

  /** `s` ends with `suffix`. */
  predicate EndsWith(s: string, suffix: string) {
    |suffix| <= |s| && s[|s| - |suffix|..] == suffix
  }

  /** Python's `sub in s`. */
  function Contains(s: string, sub: string): (b: bool)
    ensures b <==> exists i :: OccursAt(s, sub, i)
    decreases |s|
  {
    if |s| < |sub| then false
    else if s[..|sub|] == sub then
      assert OccursAt(s, sub, 0);
      true
    else
      var b := Contains(s[1..], sub);
      assert forall i :: OccursAt(s[1..], sub, i) ==> OccursAt(s, sub, i + 1);
      assert forall i :: OccursAt(s, sub, i) ==> i > 0 && OccursAt(s[1..], sub, i - 1);
      b
  }

  /** Python's `sep.join(parts)`. */
  function Join(parts: seq<string>, sep: string): (r: string)
    ensures |parts| == 0 ==> r == ""
    ensures |parts| == 1 ==> r == parts[0]
    ensures |parts| >= 2 ==> parts[0] + sep <= r
  {
    if |parts| == 0 then ""
    else if |parts| == 1 then parts[0]
    else parts[0] + sep + Join(parts[1..], sep)
  }

  /** Position of the first `c` in `s`. */
  function IndexOf(s: string, c: char): (i: nat)
    requires c in s
    ensures i < |s| && s[i] == c
    ensures c !in s[..i]
  {
    if s[0] == c then 0
    else
      var j := IndexOf(s[1..], c);
      assert s[..j + 1] == [s[0]] + s[1..][..j];
      j + 1
  }

  /** Python's `s.split(sep)` for a one-character separator: the pieces of
      `s` between separators, in order. Joining them back with the
      separator gives `s`; the last piece is the text after the last
      separator. */
  function Split(s: string, sep: char): (parts: seq<string>)
    ensures |parts| >= 1
    ensures forall k :: 0 <= k < |parts| ==> sep !in parts[k]
    ensures Join(parts, [sep]) == s
    ensures sep !in s ==> parts == [s]
    decreases |s|
  {
    if sep !in s then [s]
    else
      var i := IndexOf(s, sep);
      var rest := Split(s[i + 1..], sep);
      var parts := [s[..i]] + rest;
      assert parts[1..] == rest;
      assert s == s[..i] + [sep] + s[i + 1..];
      parts
  }

  /** A join ends with its last piece, and with more than one piece the
      separator comes right before it. */
  lemma {:induction false} JoinEndsWithLast(parts: seq<string>, sep: string)
    requires |parts| >= 1
    ensures EndsWith(Join(parts, sep), parts[|parts| - 1])
    ensures |parts| > 1 ==> EndsWith(Join(parts, sep), sep + parts[|parts| - 1])
    decreases |parts|
  {
    var last := parts[|parts| - 1];
    if |parts| == 1 {
      EndsWithConcat("", parts[0], parts[0]);
    } else {
      var rest := parts[1..];
      assert rest[|rest| - 1] == last;
      assert Join(parts, sep) == parts[0] + sep + Join(rest, sep);
      if |rest| == 1 {
        assert Join(parts, sep) == parts[0] + (sep + last);
        EndsWithConcat(parts[0], sep + last, sep + last);
      } else {
        JoinEndsWithLast(rest, sep);
        assert Join(parts, sep) == (parts[0] + sep) + Join(rest, sep);
        EndsWithConcat(parts[0] + sep, Join(rest, sep), sep + last);
      }
      EndsWithShorter(Join(parts, sep), sep, last);
    }
  }

  /** A suffix of `t` is a suffix of `a + t`. */
  lemma EndsWithConcat(a: string, t: string, x: string)
    requires t == x || EndsWith(t, x)
    ensures EndsWith(a + t, x)
  {
    assert (a + t)[|a + t| - |x|..] == t[|t| - |x|..];
  }

  /** A string ending with `p + x` ends with `x`. */
  lemma EndsWithShorter(s: string, p: string, x: string)
    requires EndsWith(s, p + x)
    ensures EndsWith(s, x)
  {
    assert s[|s| - |x|..] == s[|s| - |p + x|..][|p|..];
  }

  /** Python's `s.split(" ")[-1]`. */
  function LastWord(s: string): (w: string)
    ensures ' ' !in w
    ensures EndsWith(s, w)
    ensures |w| < |s| ==> s[|s| - |w| - 1] == ' '
  {
    var parts := Split(s, ' ');
    JoinEndsWithLast(parts, [' ']);
    parts[|parts| - 1]
  }

  /** A message that ends in a space followed by a space-free word has that
      word as its last word. */
  lemma LastWordOfSuffix(prefix: string, word: string)
    requires ' ' !in word
    ensures LastWord(prefix + " " + word) == word
  {
    var s := prefix + " " + word;
    assert s[|prefix|] == ' ';
  }

  /** A position holding `c` with no `c` before it is the first `c`. */
  lemma IndexOfFirst(s: string, c: char, j: nat)
    requires j < |s| && s[j] == c && c !in s[..j]
    ensures IndexOf(s, c) == j
  {
  }

  /** Splitting a joined sequence of separator-free pieces gives the pieces
      back. */
  lemma {:induction false} SplitJoin(parts: seq<string>, sep: char)
    requires |parts| >= 1
    requires forall k :: 0 <= k < |parts| ==> sep !in parts[k]
    ensures Split(Join(parts, [sep]), sep) == parts
    decreases |parts|
  {
    if |parts| > 1 {
      var first := parts[0];
      var tail := Join(parts[1..], [sep]);
      var s := Join(parts, [sep]);
      assert s == first + [sep] + tail;
      assert s[..|first|] == first;
      IndexOfFirst(s, sep, |first|);
      assert s[|first| + 1..] == tail;
      SplitJoin(parts[1..], sep);
      assert Split(s, sep) == [first] + parts[1..];
    }
  }
}
